=== FILE: README.md ===
# Student-records server: request gate and record-access rules

This project models the Express server `app/index.js` of a small student-records application
(students are *alunos*, users are *usuarios*). It covers the part of the server that makes its
own decisions:

- `autenticar` takes the token from the `Authorization` header, verifies it and attaches the
  decoded claims as `req.usuario`. A request is refused with 401 when there is no token or the
  token does not verify.
- `verificarAdmin` refuses with 403 anyone whose `tipo` is not `admin`.
- GET and PUT on `/api/alunos/:id` use an ownership test: the caller must be an admin, or its
  `alunoId` must equal the route's id.
- A non-admin PUT passes on only `telefone` and `curso`.
- The handlers for login, registration and the student CRUD routes read and write the two tables.
- At start-up the tables are emptied and the default administrator is created.

Modules:

- `Records` (`records.dfy`): the row types, the JSON bodies, and the rules applied on every
  write: NOT NULL, the 255-character length of every `DataTypes.STRING` column, and UNIQUE. It
  also holds the foreign key from a user to its student, with ON DELETE SET NULL.
- `Header` (`header.dfy`): JavaScript's `split(' ')` and the token extraction of `autenticar`.
- `Gate` (`gate.dfy`): the libraries the server calls (jsonwebtoken's `sign`/`verify` and bcrypt's
  `hashSync`/`compareSync`), kept as the fields of a `Crypto` value. It also holds `autenticar`,
  `verificarAdmin`, the ownership test and the responses.
- `App` (`app.dfy`): class `Server`. It holds the two tables as maps, plus the two serial id
  sequences, and has one method per route. Its `Valid()` predicate states what holds of the
  tables between requests, and every route that writes preserves it. Most of it is the
  database's constraints. The rule that no student is linked to two users is not one of them
  (`hasOne` adds no UNIQUE on `alunoId`); the routes keep it.
- `Scenarios` (`scenarios.dfy`): request sequences against a freshly started server, proved
  from the route contracts alone.

The libraries' behaviour enters the proofs only as assumptions, stated as `requires` clauses
where they are needed:
- `CodecSound`: a signed token verifies to its claims and contains no space. This describes a
  token used within the 24 hours it is signed for.
- `HashSound`: bcrypt accepts a password against its own hash.

Behaviour of the code that the model keeps as written:
- Registration is not atomic. The student row is written before the user row, and it stays when
  the user row is refused. The catch at app/index.js:189-190 answers 400, and the registration
  page shows that error so the user can correct the form and send it again
  (app/public/registro.js:44-45, 58-59). The kept row makes that retry fail; see Findings.
- Uniqueness and length are not checked before writing. A duplicate, or a string longer than its
  VARCHAR(255) column, surfaces as the database's error, answered with 400 and the library's
  message. The exception is a string whose characters beyond the 255th are all spaces: Postgres
  cuts it to 255 characters and stores it, and the model does the same. Creating a student
  reads the stored row back (`RETURNING`) and answers it cut; updating one reads nothing back, so
  the 200 answer of PUT echoes the values as sent.
- Deleting a student does not delete its user. The foreign key sets that user's `alunoId` to
  null. A student-role user can therefore end up with no linked record, and a token issued before
  the delete still carries the old `alunoId`. Its holder then passes the ownership test for that
  id and gets 404.

## Model

| member | source | states |
|---|---|---|
| `Records.Validate` | app/index.js:31-51 | a write is accepted exactly when `nome` and `email` are non-null, every string fits its 255-character column (it is at most 255 characters long, or everything beyond the 255th is spaces), and no other row holds the same stored `email` or the same stored non-null `matricula`; NOT NULL is reported first, then the length; an accepted write stores the draft cut to 255 characters per column, which leaves a draft within the limits unchanged |
| `Records.SelfService` | app/index.js:250-254 | a non-admin's body is cut down to `telefone` and `curso`; `nome`, `email` and `matricula` are never passed on |
| `Records.WriteKeepsUnique` | app/index.js:36-50 | inserting or overwriting a row that passed validation keeps the table's UNIQUE constraints |
| `Records.SelfServiceOutcome` | app/index.js:250-254 | a non-admin's update of its own row is refused, as too long, exactly when the new `telefone` or `curso` does not fit its column (over 255 characters, not all of the excess spaces); otherwise the result differs from the old row only in those two columns, which hold the new values cut to 255 characters |
| `Records.Stored` | app/index.js:41-46 | what a VARCHAR(255) column keeps of a value: at most 255 characters, a value within the limit unchanged, always a prefix of the value, and for a value the column accepts only spaces dropped |
| `Records.AsSet` | app/index.js:250-259 | the row `res.json(aluno)` sends after an update is the draft as set on the instance, carrying every column of the draft unchanged, with no cut to the column length |
| `Records.Lookup` | app/index.js:203 | `findByPk` yields the row exactly when the id is non-null and present, otherwise null |
| `Records.Matches` | app/index.js:126-130 | a user matches an identifier when its e-mail or its username equals it; a null identifier matches exactly the users without a username |
| `Records.Unlink` | app/index.js:76-77 | ON DELETE SET NULL keeps every user, leaves nobody linked to the deleted student, changes no other column and keeps every other link |
| `Records.DeleteKeepsLinks` | app/index.js:271 | after a delete with SET NULL the users' UNIQUE constraints still hold, every link points to a surviving student, and nobody links to the deleted one |
| `Records.AddUserKeepsLinks` | app/index.js:180-186 | adding a user that passed the UNIQUE check, linked to a student nobody else links to, keeps the users' constraints |
| `Records.NullIfBlank` | app/index.js:168 | the corrected reading of a registration body: no optional field is left as "", and every non-blank field is kept as sent |
| `Header.Split` | app/index.js:81 | `split(' ')` yields at least one piece and no piece contains a space |
| `Header.JoinSplit` | app/index.js:81 | splitting at spaces loses nothing: rejoining the pieces with single spaces gives the header back |
| `Header.SplitWord` | app/index.js:81 | a word without spaces splits into itself alone |
| `Header.SplitAfterWord` | app/index.js:81 | a space-free word followed by a space is the first piece, and the rest splits on its own |
| `Header.ExtractToken` | app/index.js:81-85 | no header gives no token; a token is never empty (`!token` refuses "") and contains no space, and it is one of the header's pieces |
| `Header.SecondWordIsToken` | app/index.js:81-85 | `<scheme> <token>`, with or without further words, yields the token whatever the scheme word is |
| `Header.ExtractedTokenShape` | app/index.js:81-85 | an extracted token is a non-empty, space-free word right after the first space, followed by the end of the header or by another space |
| `Header.NoSpaceNoToken` | app/index.js:81-85 | a header without a space (a bare token, or the scheme alone) yields no token |
| `Gate.Authenticate` | app/index.js:80-94 | every refusal is 401 with an `error` body: "token missing" when no token is extracted, "token invalid" when verification fails; otherwise the verifier's claims are attached unchanged |
| `Gate.NoWordNoEntry` | app/index.js:81-85 | no header, or a header without a second word, is refused with 401 "token missing" whatever the verifier would say |
| `Gate.SignedTokenAdmitted` | app/index.js:87-90 | under a sound codec (a token used within its 24 hours), a token the server signed for claims c lets c through unchanged, after any non-empty scheme word |
| `Gate.AttachedOnlyByVerifiedToken` | app/index.js:87-93 | whoever is let through sent a header `<scheme> <token>...` whose token the verifier maps to exactly the attached claims |
| `Gate.VerifyAdmin` | app/index.js:97-102 | passes exactly the callers whose `tipo` is admin and answers everyone else 403 "Acesso negado" |
| `Gate.MayAccess` | app/index.js:214 | an admin may access every id; anyone else exactly the id equal to its `alunoId`, and none when `alunoId` is null |
| `App.ClaimsOf` | app/index.js:145-158 | the token payload and the echoed `usuario` carry the same four fields of the user row: its id, e-mail, `tipo` and `alunoId` |
| `App.Server.constructor` | app/index.js:105-118 | after start-up the students table is empty and the users table holds only the administrator admin@admin.com / admin, unlinked, with the hash of "admin" |
| `App.Server.Login` | app/index.js:121-164 | an unknown identifier and a wrong password give the identical 401; a missing password for a known user gives 500; success needs a matching user whose hash accepts the password; the token signs exactly the claims echoed as `usuario` |
| `App.Server.Register` | app/index.js:166-192 | refused student row: 400 and no change; otherwise the row is inserted and stays even when the user step then fails with 400; on success a user of `tipo` aluno is linked to the new row and the answer is 201 |
| `App.Server.CreateLinkedUsuario` | app/index.js:180-188 | no password gives 400 from bcrypt; a username that does not fit its 255-character column gives 400; an e-mail or username already in the users table gives 400; otherwise the hashed, linked user is added, its username cut to the column, and the answer is 201 |
| `App.Server.RegisterAtomic` | app/index.js:166-192 | the corrected registration: the same answers as `Register`, but any 400 leaves both tables unchanged |
| `App.Server.ListAlunos` | app/index.js:195-209 | 401 from the gate; an admin gets every row; anyone else a one-element list holding the lookup of its token's `alunoId` (null if absent) |
| `App.Server.GetAluno` | app/index.js:211-226 | 401, then 403 for a non-owner non-admin whether or not the id exists, then 404, then the row |
| `App.Server.CreateAluno` | app/index.js:228-235 | 401, then 403 with the table unchanged for a non-admin; a body the database refuses (null, too long or duplicate) gives 400 with no change; otherwise 201 and exactly one new row under a fresh id |
| `App.Server.UpdateAluno` | app/index.js:237-263 | 401, 403 and 404 leave the table unchanged; a non-admin's own row changes only in `telefone`/`curso` (a left-out key keeps its value): when both fit their columns the table holds them cut to 255 characters and the 200 answer echoes them as sent, uncut, since an instance's update reads nothing back; otherwise 400 with no change; an admin's body is applied key by key and answered 200 with the row as set, the table holding it as `Validate` stores it, or refused with 400 and no change |
| `App.Server.DeleteAluno` | app/index.js:265-276 | 401, then 403 for a non-admin, then 404, each with both tables unchanged; otherwise exactly that row is removed, and its user is unlinked |
| `Scenarios.AdminLogsIn` | app/index.js:109-115 | right after start-up, admin@admin.com / admin logs in as user 1 of `tipo` admin, and the returned token passes the gate with those claims |
| `Scenarios.StudentRegisters` | app/index.js:166-192 | a registration with a free e-mail and username stores the record as sent and links a new `aluno` user holding the password's hash |
| `Scenarios.StudentLogsIn` | app/index.js:121-164 | the registered student logs in by username, and its token passes the gate as an `aluno` linked to its record |
| `Scenarios.StudentSession` | app/index.js:237-257 | the student reads its own row; its attempt to rename itself leaves `nome` unchanged while `telefone` changes; another id gets 403 |
| `Scenarios.LongPhoneRefused` | app/index.js:41-43 | a 256-character phone from the student gets 400 and the record keeps its old phone |
| `Scenarios.TrailingSpacesCut` | app/index.js:41-43 | a phone of 255 nines and a space from the student gets 200 echoing the phone as sent, and the record keeps the 255 nines |
| `Scenarios.OrphanedRegistration` | app/index.js:170-190 | registering with the admin's username gives 400 yet leaves a student row; a retry with the same e-mail and a free username is refused too, until an administrator removes or edits the orphaned row |
| `Scenarios.AtomicRegistration` | app/index.js:170-190 | with the corrected registration the same first request leaves no row, and the retry succeeds |
| `Scenarios.BlankUsernameOrphan` | app/index.js:168-190 | two registrations that both leave the username blank (sent as "") both write a student row; the second user step is refused with 400 |
| `Scenarios.BlankFieldsNormalized` | app/index.js:168-190 | with blanks turned into null and the corrected registration, two students who leave the username and the enrolment code blank are both registered |

## Findings

| source | as written | input that shows it | evidently intended | confidence | as-written member | corrected member |
|---|---|---|---|---|---|---|
| app/index.js:170-190 | the student row is created, then the user in a separate step; when the user step throws, the answer is 400 but the student row is kept | after start-up, register with a fresh e-mail and username "admin" (or with no `senha`); then register again with the same e-mail and a free username | the 400 of the catch (lines 189-190) is shown by the registration page so the user can correct the form and send it again (app/public/registro.js:44-45, 58-59); a refused registration should therefore change neither table, so that the retry can succeed | high (not executed) | `Scenarios.OrphanedRegistration` | `App.Server.RegisterAtomic` |
| app/public/registro.js:10-15, 32-40 | the registration page sends every field as a string, so a field left blank arrives as ""; the server stores it, and "" is a value of the UNIQUE columns `username` (app/index.js:60-63) and `matricula` (47-49) | after start-up, register two students with different e-mails and enrolment codes, both leaving the username blank | `username` may be null (app/index.js:62), so a blank username means no username, and any number of students can leave it (or the enrolment code) blank | medium (not executed) | `Scenarios.BlankUsernameOrphan` | `Records.NullIfBlank` |

## Left out

- JWT signing and verification, the secret and the 24-hour expiry are not modelled. They are
  the `sign`/`verify` fields of `Crypto`. The decoded claims also carry `iat` and `exp`, which
  `Claims` omits. `CodecSound` makes every token the server signed verify, so
  `Gate.SignedTokenAdmitted`, `Scenarios.AdminLogsIn` and `Scenarios.StudentLogsIn` describe a
  token used within its 24 hours. A token used later is refused by `jwt.verify`, which the
  model leaves to the `verify` field.
- bcrypt is not modelled either. `hash` is a fixed function of the password, so the random salt
  is not modelled. Only `HashSound` is assumed, and only in the scenarios.
- The database connection, `sync`'s DDL and storage failures are left out. Those are the 500
  answers of the list, read and delete routes.
- Concurrent requests are left out. Each route runs to completion before the next one starts.
- App.Server.Login: a body with no `email` key is not modelled. Sequelize rejects `undefined`
  in a where clause, and how it does so depends on its version. `None` stands for JSON null,
  which matches every user without a username.
- App.Server.ListAlunos: `findAll` has no ORDER BY, so its rows come in no fixed order. The model
  returns the table itself.
- App.Server.UpdateAluno, App.Server.CreateAluno, App.Server.Login, App.Server.Register: the
  bodies hold strings or null only. Keys such as `id` or `createdAt` are not modelled, and
  neither are non-string JSON values. In Login a numeric `senha` makes `compareSync` throw
  (500); in Register a numeric `senha` makes `hashSync` throw after the student row is written
  (400, with the row kept).
- Records.Validate, App.Server.CreateLinkedUsuario, App.Server.Login: a string holding the
  character U+0000 is not modelled. Postgres refuses it in any text value, so a write holding one
  gets 400 and a login identifier holding one gets 500; the model stores such a string like
  any other and looks such an identifier up like any other.
- Sequelize's error messages are reduced to a `Failure` kind. When several NOT NULL columns are
  null the model reports one NotNullViolation, where Sequelize lists them all.
- The `createdAt`/`updatedAt` timestamps are not modelled.
- App.Server.UpdateAluno, App.Server.GetAluno, App.Server.DeleteAluno: route ids are integers
  already parsed from the path, and unbounded, whereas the key is a Postgres INTEGER. An id
  outside INTEGER's range, or a path segment that is not a number, makes `findByPk` throw: PUT
  answers 400 and GET and DELETE answer 500, where the model answers 404. The loose `!=`
  between a number and the path string is not modelled either.
- Serial ids: an INSERT refused by the database (too long or duplicate) consumes a value of the
  sequence, and the model keeps that; a NOT NULL refusal happens before anything is sent. The
  corrected `RegisterAtomic` does not. Nothing is promised about the counters beyond the
  freshness of a new id.
- Static pages, CORS and `app.listen` (app/index.js:12-15, 278-290) are plumbing and are not
  modelled.
- The browser scripts under `app/public/` (DOM, `fetch`, `localStorage`) are not modelled, and
  neither is `app/check-tables.js` (database introspection). The scenarios take from the
  registration page only that it sends a blank field as "".
- Password reset, search, statistics, export and logs are called by the pages but have no
  handler in `app/index.js`, so there is nothing of theirs to model.

=== FILE: app.dfy ===
/** The Express server: its two tables and one method per route. Each protected route first runs
    `autenticar` (and, for POST and DELETE, `verificarAdmin`), then its own checks, and answers
    with the first failure: 401, then 403, then 404, then what the database says. */
module App {
  import opened Records
  import opened Gate

  /** The payload `jwt.sign` receives at login; the same four fields are echoed as `usuario`. */
  function ClaimsOf(id: int, u: Usuario): (c: Claims)
    ensures c.id == id && c.email == u.email && c.tipo == u.tipo && c.alunoId == u.alunoId
  {
    Claims(id, u.email, u.tipo, u.alunoId)
  }

  /** The administrator created at start-up. */
  function AdminSeed(crypto: Crypto): Usuario {
    Usuario("admin@admin.com", Some("admin"), crypto.hash("admin"), TipoAdmin, None)
  }

  class Server {
    const crypto: Crypto
    var alunos: Table
    var usuarios: Users
    // the next values of the two tables' serial id sequences
    var nextAlunoId: int
    var nextUsuarioId: int

    /** What holds of the two tables between requests: the serial keys, the columns' lengths,
        the UNIQUE constraints and the foreign key, which the database keeps, and the
        one-user-per-student half of `Linked`, which the routes keep. */
    ghost predicate Valid()
      reads this
    {
      && 0 < nextAlunoId && 0 < nextUsuarioId
      && (forall k :: k in alunos ==> 0 < k < nextAlunoId)
      && (forall k :: k in usuarios ==> 0 < k < nextUsuarioId)
      && AlunosFit(alunos)
      && UniqueAlunos(alunos)
      && UniqueUsuarios(usuarios)
      && Linked(usuarios, alunos)
    }

    /** `sequelize.sync({ force: true })` empties both tables; then the default administrator
        (admin@admin.com, username admin, password admin) is created. */
    constructor (crypto: Crypto)
      ensures Valid()
      ensures this.crypto == crypto
      ensures alunos == map[] && usuarios == map[1 := AdminSeed(crypto)]
    {
      this.crypto := crypto;
      alunos := map[];
      usuarios := map[1 := AdminSeed(crypto)];
      nextAlunoId := 1;
      nextUsuarioId := 2;
    }

    /** POST /api/auth/login. The user is looked up by e-mail or username; the database may hold
        two matches (one user's e-mail is another's username) and then returns either. An
        unknown user and a wrong password get the same 401; on success the token carries exactly
        the claims that are echoed back as `usuario`. */
    method Login(email: Option<string>, senha: Option<string>) returns (res: Response)
      ensures res.status == 200 || res.status == 401 || res.status == 500
      ensures res.status == 401 ==> res == LoginRefused
      ensures (forall k :: k in usuarios ==> !Matches(usuarios[k], email)) ==> res == LoginRefused
      ensures res.status == 500 <==> senha.None? && exists k :: k in usuarios && Matches(usuarios[k], email)
      ensures res.status == 500 ==> res.body == Failed(IllegalArguments)
      ensures senha.Some? && (forall k :: k in usuarios && Matches(usuarios[k], email) ==>
                                   !crypto.compare(senha.value, usuarios[k].senha))
              ==> res == LoginRefused
      ensures (&& senha.Some?
               && (exists k :: k in usuarios && Matches(usuarios[k], email))
               && (forall k :: k in usuarios && Matches(usuarios[k], email) ==>
                                crypto.compare(senha.value, usuarios[k].senha)))
              ==> res.status == 200
      ensures res.status == 200 ==>
        && senha.Some?
        && exists k :: && k in usuarios && Matches(usuarios[k], email)
                       && crypto.compare(senha.value, usuarios[k].senha)
                       && res.body == Session(crypto.sign(ClaimsOf(k, usuarios[k])), ClaimsOf(k, usuarios[k]))
    {
      if k :| k in usuarios && Matches(usuarios[k], email) {
        var usuario := usuarios[k];
        if senha.None? {
          return Response(500, Failed(IllegalArguments));
        }
        if !crypto.compare(senha.value, usuario.senha) {
          return LoginRefused;
        }
        var claims := ClaimsOf(k, usuario);
        var token := crypto.sign(claims);
        res := Response(200, Session(token, claims));
      } else {
        res := LoginRefused;
      }
    }

    /** POST /api/auth/registro, as written: the student row is inserted first and the user row in
        a second, separate step. When the second step fails (no password, a username too long for
        its column, or an e-mail or username the users table already holds), the answer is 400 but
        the student row stays. */
    method Register(body: Registration) returns (res: Response)
      requires Valid()
      modifies this
      ensures Valid()
      ensures var v := Validate(old(alunos), None, RegistrationDraft(body));
        && (v.Err? ==> res == Response(400, Failed(v.error)) && alunos == old(alunos) && usuarios == old(usuarios))
        && (v.Ok? ==> alunos == old(alunos)[old(nextAlunoId) := v.value])
        && (v.Ok? && body.senha.None? ==>
              res == Response(400, Failed(IllegalArguments)) && usuarios == old(usuarios))
        && (v.Ok? && body.senha.Some? && !Fits(body.username) ==>
              res == Response(400, Failed(TooLong)) && usuarios == old(usuarios))
        && (v.Ok? && body.senha.Some? && Fits(body.username)
              && UsuarioConflict(old(usuarios), v.value.email, Stored(body.username)) ==>
              res == Response(400, Failed(UniqueViolation)) && usuarios == old(usuarios))
        && (v.Ok? && body.senha.Some? && Fits(body.username)
              && !UsuarioConflict(old(usuarios), v.value.email, Stored(body.username)) ==>
              && res == Response(201, MessageBody(Registered))
              && usuarios == old(usuarios)[old(nextUsuarioId) := Usuario(v.value.email, Stored(body.username),
                   crypto.hash(body.senha.value), TipoAluno, Some(old(nextAlunoId)))])
    {
      var v := Validate(alunos, None, RegistrationDraft(body));
      if v.Err? {
        if v.error != NotNullViolation {
          nextAlunoId := nextAlunoId + 1;  // the refused INSERT still drew a value from the sequence
        }
        return Response(400, Failed(v.error));
      }
      var alunoId := nextAlunoId;
      WriteKeepsUnique(alunos, None, alunoId, RegistrationDraft(body));
      alunos := alunos[alunoId := v.value];
      nextAlunoId := nextAlunoId + 1;
      res := CreateLinkedUsuario(v.value.email, body.username, body.senha, alunoId);
    }

    /** The second step of a registration: `Usuario.create` for a student just inserted as row
        `alunoId`, after bcrypt has hashed the password. The e-mail is the student's as stored,
        which already fits its column, and the hash always does. The username is refused when it
        is too long for its column, and otherwise kept as the column cuts it. */
    method CreateLinkedUsuario(email: string, username: Option<string>, senha: Option<string>, alunoId: int)
        returns (res: Response)
      requires Valid()
      requires alunoId in alunos
      requires forall k :: k in usuarios ==> usuarios[k].alunoId != Some(alunoId)
      modifies this`usuarios, this`nextUsuarioId
      ensures Valid()
      ensures senha.None? ==> res == Response(400, Failed(IllegalArguments)) && usuarios == old(usuarios)
      ensures senha.Some? && !Fits(username) ==> res == Response(400, Failed(TooLong)) && usuarios == old(usuarios)
      ensures senha.Some? && Fits(username) && UsuarioConflict(old(usuarios), email, Stored(username)) ==>
        res == Response(400, Failed(UniqueViolation)) && usuarios == old(usuarios)
      ensures senha.Some? && Fits(username) && !UsuarioConflict(old(usuarios), email, Stored(username)) ==>
        && res == Response(201, MessageBody(Registered))
        && usuarios == old(usuarios)[old(nextUsuarioId) := Usuario(email, Stored(username), crypto.hash(senha.value), TipoAluno, Some(alunoId))]
    {
      if senha.None? {
        return Response(400, Failed(IllegalArguments));  // bcrypt.hashSync throws on a non-string
      }
      var u := Usuario(email, Stored(username), crypto.hash(senha.value), TipoAluno, Some(alunoId));
      if !Fits(username) || UsuarioConflict(usuarios, email, u.username) {
        nextUsuarioId := nextUsuarioId + 1;  // the refused INSERT still drew a value from the sequence
        return Response(400, Failed(if !Fits(username) then TooLong else UniqueViolation));
      }
      AddUserKeepsLinks(usuarios, alunos, nextUsuarioId, u);
      usuarios := usuarios[nextUsuarioId := u];
      nextUsuarioId := nextUsuarioId + 1;
      res := Response(201, MessageBody(Registered));
    }

    /** POST /api/auth/registro as it is evidently meant to behave: both rows are checked before
        either is written, so a refused registration leaves both tables as they were. */
    method RegisterAtomic(body: Registration) returns (res: Response)
      requires Valid()
      modifies this
      ensures Valid()
      ensures res.status == 400 ==> alunos == old(alunos) && usuarios == old(usuarios)
      ensures var v := Validate(old(alunos), None, RegistrationDraft(body));
        && (v.Err? ==> res == Response(400, Failed(v.error)))
        && (v.Ok? && body.senha.None? ==> res == Response(400, Failed(IllegalArguments)))
        && (v.Ok? && body.senha.Some? && !Fits(body.username) ==> res == Response(400, Failed(TooLong)))
        && (v.Ok? && body.senha.Some? && Fits(body.username)
              && UsuarioConflict(old(usuarios), v.value.email, Stored(body.username)) ==>
              res == Response(400, Failed(UniqueViolation)))
        && (v.Ok? && body.senha.Some? && Fits(body.username)
              && !UsuarioConflict(old(usuarios), v.value.email, Stored(body.username)) ==>
              && res == Response(201, MessageBody(Registered))
              && alunos == old(alunos)[old(nextAlunoId) := v.value]
              && usuarios == old(usuarios)[old(nextUsuarioId) := Usuario(v.value.email, Stored(body.username),
                   crypto.hash(body.senha.value), TipoAluno, Some(old(nextAlunoId)))])
    {
      var v := Validate(alunos, None, RegistrationDraft(body));
      if v.Err? {
        return Response(400, Failed(v.error));
      }
      if body.senha.None? {
        return Response(400, Failed(IllegalArguments));
      }
      if !Fits(body.username) {
        return Response(400, Failed(TooLong));
      }
      if UsuarioConflict(usuarios, v.value.email, Stored(body.username)) {
        return Response(400, Failed(UniqueViolation));
      }
      var alunoId := nextAlunoId;
      WriteKeepsUnique(alunos, None, alunoId, RegistrationDraft(body));
      alunos := alunos[alunoId := v.value];
      nextAlunoId := nextAlunoId + 1;
      res := CreateLinkedUsuario(v.value.email, body.username, body.senha, alunoId);
    }

    /** GET /api/alunos: an administrator gets every student; anyone else a one-element list
        holding the lookup of the `alunoId` in its token (null when that is null or gone). */
    method ListAlunos(authorization: Option<string>) returns (res: Response)
      ensures Authenticate(authorization, crypto.verify).Rejected? ==>
        res == Authenticate(authorization, crypto.verify).response
      ensures Authenticate(authorization, crypto.verify).Attached? ==> res.status == 200
      ensures Authenticate(authorization, crypto.verify).Attached? ==>
        var caller := Authenticate(authorization, crypto.verify).usuario;
        && (caller.tipo == TipoAdmin ==> res.body == AllRows(alunos))
        && (caller.tipo != TipoAdmin ==> res.body == OwnRow(Lookup(alunos, caller.alunoId)))
    {
      var gate := Authenticate(authorization, crypto.verify);
      if gate.Rejected? {
        return gate.response;
      }
      if gate.usuario.tipo == TipoAdmin {
        res := Response(200, AllRows(alunos));
      } else {
        res := Response(200, OwnRow(Lookup(alunos, gate.usuario.alunoId)));
      }
    }

    /** GET /api/alunos/:id: 401, then 403 for a caller that neither is an administrator nor owns
        the record (whether or not it exists), then 404, then the record. */
    method GetAluno(authorization: Option<string>, id: int) returns (res: Response)
      ensures Authenticate(authorization, crypto.verify).Rejected? ==>
        res == Authenticate(authorization, crypto.verify).response
      ensures Authenticate(authorization, crypto.verify).Attached? ==>
        var caller := Authenticate(authorization, crypto.verify).usuario;
        && (!MayAccess(caller, id) ==> res == Forbidden)
        && (MayAccess(caller, id) && id !in alunos ==> res == NotFound)
        && (MayAccess(caller, id) && id in alunos ==> res == Response(200, Row(id, alunos[id])))
    {
      var gate := Authenticate(authorization, crypto.verify);
      if gate.Rejected? {
        return gate.response;
      }
      if !MayAccess(gate.usuario, id) {
        return Forbidden;
      }
      if id !in alunos {
        return NotFound;
      }
      res := Response(200, Row(id, alunos[id]));
    }

    /** POST /api/alunos (administrators only): inserts the body as a new student. */
    method CreateAluno(authorization: Option<string>, body: AlunoFields) returns (res: Response)
      requires Valid()
      modifies this`alunos, this`nextAlunoId
      ensures Valid()
      ensures Authenticate(authorization, crypto.verify).Rejected? ==>
        res == Authenticate(authorization, crypto.verify).response && alunos == old(alunos)
      ensures Authenticate(authorization, crypto.verify).Attached? ==>
        var caller := Authenticate(authorization, crypto.verify).usuario;
        var v := Validate(old(alunos), None, Apply(Blank, body));
        && (caller.tipo != TipoAdmin ==> res == Forbidden && alunos == old(alunos))
        && (caller.tipo == TipoAdmin && v.Err? ==> res == Response(400, Failed(v.error)) && alunos == old(alunos))
        && (caller.tipo == TipoAdmin && v.Ok? ==>
              && res == Response(201, Row(old(nextAlunoId), v.value))
              && old(nextAlunoId) !in old(alunos)
              && alunos == old(alunos)[old(nextAlunoId) := v.value])
    {
      var gate := Authenticate(authorization, crypto.verify);
      if gate.Rejected? {
        return gate.response;
      }
      var denied := VerifyAdmin(gate.usuario);
      if denied.Some? {
        return denied.value;
      }
      var draft := Apply(Blank, body);
      var v := Validate(alunos, None, draft);
      if v.Err? {
        if v.error != NotNullViolation {
          nextAlunoId := nextAlunoId + 1;
        }
        return Response(400, Failed(v.error));
      }
      WriteKeepsUnique(alunos, None, nextAlunoId, draft);
      alunos := alunos[nextAlunoId := v.value];
      res := Response(201, Row(nextAlunoId, v.value));
      nextAlunoId := nextAlunoId + 1;
    }

    /** PUT /api/alunos/:id: 401, then 403 (not admin and not the owner), then 404. A student
        may then change only `telefone` and `curso`, and that update is refused only when one of
        them is too long for its column; an administrator's body is applied key by key and may be
        refused by the database. The 200 answer is the instance as it was set: an instance's
        `update` reads nothing back from the UPDATE (there is no RETURNING), so a value the column
        cuts to 255 characters is answered uncut while the table holds it cut. */
    method UpdateAluno(authorization: Option<string>, id: int, body: AlunoFields) returns (res: Response)
      requires Valid()
      modifies this`alunos
      ensures Valid()
      ensures Authenticate(authorization, crypto.verify).Rejected? ==>
        res == Authenticate(authorization, crypto.verify).response && alunos == old(alunos)
      ensures Authenticate(authorization, crypto.verify).Attached? ==>
        var caller := Authenticate(authorization, crypto.verify).usuario;
        && (!MayAccess(caller, id) ==> res == Forbidden && alunos == old(alunos))
        && (MayAccess(caller, id) && id !in old(alunos) ==> res == NotFound && alunos == old(alunos))
        && (MayAccess(caller, id) && id in old(alunos) && caller.tipo != TipoAdmin ==>
              var telefone, curso := Put(old(alunos)[id].telefone, body.telefone), Put(old(alunos)[id].curso, body.curso);
              var a := old(alunos)[id].(telefone := Stored(telefone), curso := Stored(curso));
              && (Fits(telefone) && Fits(curso) ==>
                    && res == Response(200, Row(id, old(alunos)[id].(telefone := telefone, curso := curso)))
                    && alunos == old(alunos)[id := a])
              && (!Fits(telefone) || !Fits(curso) ==> res == Response(400, Failed(TooLong)) && alunos == old(alunos)))
        && (caller.tipo == TipoAdmin && id in old(alunos) ==>
              var d := Apply(DraftOf(old(alunos)[id]), body);
              var v := Validate(old(alunos), Some(id), d);
              && (v.Err? ==> res == Response(400, Failed(v.error)) && alunos == old(alunos))
              && (v.Ok? ==> res == Response(200, Row(id, AsSet(d))) && alunos == old(alunos)[id := v.value]))
    {
      var gate := Authenticate(authorization, crypto.verify);
      if gate.Rejected? {
        return gate.response;
      }
      if !MayAccess(gate.usuario, id) {
        return Forbidden;
      }
      if id !in alunos {
        return NotFound;
      }
      var patch := if gate.usuario.tipo != TipoAdmin then SelfService(body) else body;
      if gate.usuario.tipo != TipoAdmin {
        SelfServiceOutcome(alunos, id, body);
      }
      var draft := Apply(DraftOf(alunos[id]), patch);
      var v := Validate(alunos, Some(id), draft);
      if v.Err? {
        return Response(400, Failed(v.error));
      }
      WriteKeepsUnique(alunos, Some(id), id, draft);
      alunos := alunos[id := v.value];
      res := Response(200, Row(id, AsSet(draft)));
    }

    /** DELETE /api/alunos/:id (administrators only): 401, then 403, then 404; otherwise exactly
        that student is removed, and the foreign key's ON DELETE SET NULL unlinks its user. */
    method DeleteAluno(authorization: Option<string>, id: int) returns (res: Response)
      requires Valid()
      modifies this`alunos, this`usuarios
      ensures Valid()
      ensures Authenticate(authorization, crypto.verify).Rejected? ==>
        res == Authenticate(authorization, crypto.verify).response
        && alunos == old(alunos) && usuarios == old(usuarios)
      ensures Authenticate(authorization, crypto.verify).Attached? ==>
        var caller := Authenticate(authorization, crypto.verify).usuario;
        && (caller.tipo != TipoAdmin ==> res == Forbidden && alunos == old(alunos) && usuarios == old(usuarios))
        && (caller.tipo == TipoAdmin && id !in old(alunos) ==>
              res == NotFound && alunos == old(alunos) && usuarios == old(usuarios))
        && (caller.tipo == TipoAdmin && id in old(alunos) ==>
              && res == Response(200, MessageBody(Deleted))
              && alunos == old(alunos) - {id}
              && usuarios == Unlink(old(usuarios), id))
    {
      var gate := Authenticate(authorization, crypto.verify);
      if gate.Rejected? {
        return gate.response;
      }
      var denied := VerifyAdmin(gate.usuario);
      if denied.Some? {
        return denied.value;
      }
      if id !in alunos {
        return NotFound;
      }
      DeleteKeepsLinks(usuarios, alunos, id);
      alunos := alunos - {id};
      usuarios := Unlink(usuarios, id);
      res := Response(200, MessageBody(Deleted));
    }
  }
}

=== FILE: gate.dfy ===
/** The request gate: the `autenticar` and `verificarAdmin` middlewares and the ownership test of
    the record routes, together with the HTTP responses every route can give. */
module Gate {
  import opened Records
  import opened Header

  /** The libraries the server calls and this model does not look into: jsonwebtoken's `sign` and
      `verify` under the process secret, bcrypt's `hashSync(_, 8)` and `compareSync`. */
  datatype Crypto = Crypto(
    verify: string -> Option<Claims>,
    sign: Claims -> string,
    hash: string -> string,
    compare: (string, string) -> bool)

  /** What the gate's correctness rests on: a token the server signed verifies to the claims it
      was signed with and is one non-empty word (JSON Web Tokens are base64url and dots). The
      tokens are signed with `expiresIn: '24h'`, so this describes a token used within its 24
      hours; after that `jwt.verify` throws, which this premise leaves out. */
  ghost predicate CodecSound(crypto: Crypto) {
    forall c :: crypto.verify(crypto.sign(c)) == Some(c) && ' ' !in crypto.sign(c) && crypto.sign(c) != ""
  }

  /** bcrypt accepts a password against the hash made from it. */
  ghost predicate HashSound(crypto: Crypto) {
    forall p :: crypto.compare(p, crypto.hash(p))
  }

  datatype Body =
    | ErrorBody(error: string)                 // { error: <fixed text> }
    | MessageBody(message: string)             // { message: <fixed text> }
    | Failed(failure: Failure)                 // { error: error.message } of a thrown error
    | Row(id: int, aluno: Aluno)               // one student
    | AllRows(rows: Table)                     // every student (`findAll`)
    | OwnRow(row: Option<Aluno>)               // `[aluno]`, where aluno may be null
    | Session(token: string, usuario: Claims)  // the login answer

  datatype Response = Response(status: int, body: Body)

  const TokenMissing := "Token não fornecido"
  const TokenInvalid := "Token inválido"
  const AccessDenied := "Acesso negado"
  const AlunoNotFound := "Aluno não encontrado"
  const BadCredentials := "Email/usuário ou senha incorretos"
  const Registered := "Usuário registrado com sucesso"
  const Deleted := "Aluno excluído com sucesso"

  const Forbidden := Response(403, ErrorBody(AccessDenied))
  const NotFound := Response(404, MessageBody(AlunoNotFound))
  const LoginRefused := Response(401, ErrorBody(BadCredentials))

  /** Where a request stands after `autenticar`: refused with its response, or let through with
      the decoded claims attached as `req.usuario`. */
  datatype Outcome = Rejected(response: Response) | Attached(usuario: Claims)

  /** `autenticar`: no token in the header gives 401 "token missing"; a token that does not verify
      gives 401 "token invalid"; otherwise the decoded claims, unchanged, become the caller. */
  function Authenticate(authorization: Option<string>, verify: string -> Option<Claims>): (r: Outcome)
    ensures r.Rejected? ==> r.response.status == 401 && r.response.body.ErrorBody?
    ensures ExtractToken(authorization).None? ==> r == Rejected(Response(401, ErrorBody(TokenMissing)))
    ensures ExtractToken(authorization).Some? ==>
      match verify(ExtractToken(authorization).value)
      case None => r == Rejected(Response(401, ErrorBody(TokenInvalid)))
      case Some(c) => r == Attached(c)
  {
    match ExtractToken(authorization)
    case None => Rejected(Response(401, ErrorBody(TokenMissing)))
    case Some(token) =>
      match verify(token)
      case None => Rejected(Response(401, ErrorBody(TokenInvalid)))
      case Some(decoded) => Attached(decoded)
  }

  /** No `Authorization` header, or one without a second space-separated word, is refused before
      any token is verified, whatever the verifier would say. */
  lemma NoWordNoEntry(h: string, verify: string -> Option<Claims>)
    requires ' ' !in h
    ensures Authenticate(None, verify) == Rejected(Response(401, ErrorBody(TokenMissing)))
    ensures Authenticate(Some(h), verify) == Rejected(Response(401, ErrorBody(TokenMissing)))
  {
    NoSpaceNoToken(h);
  }

  /** A token the server signed, sent after any non-empty scheme word, lets its claims through
      unchanged. (With an empty scheme the header would start with a space, which Node strips.) */
  lemma SignedTokenAdmitted(crypto: Crypto, c: Claims, scheme: string)
    requires CodecSound(crypto)
    requires scheme != "" && ' ' !in scheme
    ensures Authenticate(Some(scheme + " " + crypto.sign(c)), crypto.verify) == Attached(c)
  {
    SecondWordIsToken(scheme, crypto.sign(c), "");
  }

  /** Whoever is let through holds claims the verifier produced from a word of the header: with a
      sound codec, nobody enters without a token that verifies. */
  lemma AttachedOnlyByVerifiedToken(h: string, verify: string -> Option<Claims>, c: Claims)
      returns (scheme: string, token: string, tail: string)
    requires Authenticate(Some(h), verify) == Attached(c)
    ensures h == scheme + " " + token + tail && ' ' !in scheme && (tail == [] || tail[0] == ' ')
    ensures verify(token) == Some(c)
  {
    token := ExtractToken(Some(h)).value;
    scheme, tail := ExtractedTokenShape(h, token);
  }

  /** `verificarAdmin`: anyone whose `tipo` is not admin is refused with 403. */
  function VerifyAdmin(usuario: Claims): (r: Option<Response>)
    ensures r.None? <==> usuario.tipo == TipoAdmin
    ensures r.Some? ==> r.value == Forbidden
  {
    if usuario.tipo != TipoAdmin then Some(Forbidden) else None
  }

  /** The test shared by GET and PUT on `/api/alunos/:id`: an admin, or the student the record
      belongs to. A user without a linked student (an admin, or a student whose record was
      deleted) owns no record. */
  function MayAccess(usuario: Claims, id: int): (r: bool)
    ensures usuario.tipo == TipoAdmin ==> r
    ensures usuario.tipo != TipoAdmin ==> (r <==> usuario.alunoId == Some(id))
  {
    !(usuario.tipo != TipoAdmin && usuario.alunoId != Some(id))
  }
}

=== FILE: header.dfy ===
/** How `autenticar` finds the token in the `Authorization` header: it splits the header at
    every space, as JavaScript's `header.split(' ')` does, and takes the second piece. */
module Header {
  import opened Records

  /** The pieces of `s` between its spaces, empty pieces included: `"a  b"` has three. */
  function Split(s: string): (pieces: seq<string>)
    ensures |pieces| >= 1
    ensures forall i :: 0 <= i < |pieces| ==> ' ' !in pieces[i]
    decreases |s|
  {
    if s == [] then [""]
    else
      var rest := Split(s[1..]);
      if s[0] == ' ' then [""] + rest
      else [[s[0]] + rest[0]] + rest[1..]
  }

  /** The pieces put back together with one space between neighbours (`pieces.join(' ')`). */
  function Join(pieces: seq<string>): string
    requires |pieces| >= 1
  {
    if |pieces| == 1 then pieces[0] else pieces[0] + " " + Join(pieces[1..])
  }

  /** Splitting loses nothing: joining the pieces gives the header back. */
  lemma {:induction false} JoinSplit(s: string)
    ensures Join(Split(s)) == s
    decreases |s|
  {
    if s != [] {
      var rest := Split(s[1..]);
      JoinSplit(s[1..]);
      if s[0] == ' ' {
        assert Split(s) == [""] + rest;
        assert ([""] + rest)[1..] == rest;
      } else {
        var pieces := [[s[0]] + rest[0]] + rest[1..];
        assert Split(s) == pieces;
        if |rest| == 1 {
          assert Join(pieces) == [s[0]] + rest[0];
        } else {
          assert pieces[1..] == rest[1..];
          assert Join(pieces) == [s[0]] + rest[0] + " " + Join(rest[1..]);
        }
        assert [s[0]] + s[1..] == s;
      }
    }
  }

  /** A word without spaces splits into itself alone. */
  lemma {:induction false} SplitWord(w: string)
    requires ' ' !in w
    ensures Split(w) == [w]
    decreases |w|
  {
    if w != [] {
      SplitWord(w[1..]);
      assert [w[0]] + w[1..] == w;
    }
  }

  /** A leading word followed by a space becomes the first piece; the rest splits on its own. */
  lemma {:induction false} SplitAfterWord(w: string, tail: string)
    requires ' ' !in w
    ensures Split(w + " " + tail) == [w] + Split(tail)
    decreases |w|
  {
    if w == [] {
      assert (w + " " + tail)[1..] == tail;
    } else {
      var s := w + " " + tail;
      assert s[1..] == w[1..] + " " + tail;
      SplitAfterWord(w[1..], tail);
      assert [w[0]] + w[1..] == w;
    }
  }

  /** `req.headers.authorization?.split(' ')[1]`, kept only when it is a non-empty string
      (`if (!token)` also refuses the empty string). `authorization` is the header's value as
      Node's HTTP parser hands it over, with leading and trailing whitespace already stripped. */
  function ExtractToken(authorization: Option<string>): (token: Option<string>)
    ensures authorization.None? ==> token.None?
    ensures token.Some? ==> token.value != "" && ' ' !in token.value
    ensures token.Some? ==> authorization.Some? && token.value in Split(authorization.value)
  {
    match authorization
    case None => None
    case Some(h) =>
      var pieces := Split(h);
      if |pieces| >= 2 && pieces[1] != "" then Some(pieces[1]) else None
  }

  /** The scheme word is never looked at: `<anything> <token>` yields the token, whatever follows
      it after a further space. */
  lemma SecondWordIsToken(scheme: string, token: string, tail: string)
    requires ' ' !in scheme && ' ' !in token && token != ""
    ensures ExtractToken(Some(scheme + " " + token)) == Some(token)
    ensures ExtractToken(Some(scheme + " " + token + " " + tail)) == Some(token)
  {
    SplitAfterWord(scheme, token);
    SplitWord(token);
    assert scheme + " " + token + " " + tail == scheme + " " + (token + " " + tail);
    SplitAfterWord(scheme, token + " " + tail);
    SplitAfterWord(token, tail);
  }

  /** Conversely, an extracted token is a non-empty word standing right after the first space,
      and after it comes either the end of the header or another space. */
  lemma ExtractedTokenShape(h: string, token: string) returns (scheme: string, tail: string)
    requires ExtractToken(Some(h)) == Some(token)
    ensures ' ' !in scheme && ' ' !in token && token != ""
    ensures tail == [] || tail[0] == ' '
    ensures h == scheme + " " + token + tail
  {
    var pieces := Split(h);
    JoinSplit(h);
    scheme := pieces[0];
    assert Join(pieces) == scheme + " " + Join(pieces[1..]);
    if |pieces| == 2 {
      tail := [];
      assert Join(pieces[1..]) == token;
    } else {
      tail := " " + Join(pieces[2..]);
      assert pieces[1..][1..] == pieces[2..];
      assert Join(pieces[1..]) == token + " " + Join(pieces[2..]);
    }
  }

  /** A header with no space in it (a bare token, or the scheme alone) yields no token. */
  lemma NoSpaceNoToken(h: string)
    requires ' ' !in h
    ensures ExtractToken(Some(h)) == None
  {
    SplitWord(h);
  }
}

=== FILE: records.dfy ===
/** The two tables of the application (students and users), the request bodies that
    write them, and the row-level rules the database enforces on every write:
    not-null columns, unique columns and the user-to-student foreign key. */
module Records {

  datatype Option<+T> = None | Some(value: T)

  datatype Result<+T, +E> = Ok(value: T) | Err(error: E)

  /** The `tipo` enum of the users table: 'admin' or 'aluno'. */
  datatype Tipo = TipoAdmin | TipoAluno

  /** The claims carried by a session token and attached to a request as `req.usuario`. */
  datatype Claims = Claims(id: int, email: string, tipo: Tipo, alunoId: Option<int>)

  /** A row of the students table (its key, the serial id, is the key of the map that holds it). */
  datatype Aluno = Aluno(
    nome: string,
    email: string,
    telefone: Option<string>,
    curso: Option<string>,
    matricula: Option<string>)

  /** A row of the users table; `senha` holds the password hash, never the password. */
  datatype Usuario = Usuario(
    email: string,
    username: Option<string>,
    senha: string,
    tipo: Tipo,
    alunoId: Option<int>)

  /** One key of a JSON request body: left out, or given (its value may be null). */
  datatype Field<+T> = Absent | Given(value: T)

  /** The body of POST and PUT on /api/alunos. */
  datatype AlunoFields = AlunoFields(
    nome: Field<Option<string>>,
    email: Field<Option<string>>,
    telefone: Field<Option<string>>,
    curso: Field<Option<string>>,
    matricula: Field<Option<string>>)

  /** The body of POST /api/auth/registro; None stands for a key left out or given as null. */
  datatype Registration = Registration(
    nome: Option<string>,
    email: Option<string>,
    username: Option<string>,
    senha: Option<string>,
    telefone: Option<string>,
    curso: Option<string>,
    matricula: Option<string>)

  /** The body a registration is evidently meant to store: the registration page sends a field
      left blank as "", and "" is turned into null in the optional columns (`username`,
      `telefone`, `curso`, `matricula`), so that it no longer counts as a value of a UNIQUE column.
      Every non-blank field is kept as sent. */
  function NullIfBlank(body: Registration): (r: Registration)
    ensures r.nome == body.nome && r.email == body.email && r.senha == body.senha
    ensures r.username != Some("") && r.telefone != Some("") && r.curso != Some("") && r.matricula != Some("")
    ensures body.username != Some("") ==> r.username == body.username
    ensures body.telefone != Some("") ==> r.telefone == body.telefone
    ensures body.curso != Some("") ==> r.curso == body.curso
    ensures body.matricula != Some("") ==> r.matricula == body.matricula
  {
    body.(username := Blanked(body.username), telefone := Blanked(body.telefone),
          curso := Blanked(body.curso), matricula := Blanked(body.matricula))
  }

  function Blanked(s: Option<string>): Option<string> {
    if s == Some("") then None else s
  }

  /** A student row before the database has checked it: every column may still be null. */
  datatype Draft = Draft(
    nome: Option<string>,
    email: Option<string>,
    telefone: Option<string>,
    curso: Option<string>,
    matricula: Option<string>)

  /** Why the storage layer (or bcrypt) threw. */
  datatype Failure =
    | NotNullViolation   // a NOT NULL column given null; rejected before the INSERT/UPDATE is sent
    | TooLong            // a string too long for its VARCHAR(255) column; rejected by the database
    | UniqueViolation    // a UNIQUE column clashes with another row; rejected by the database
    | IllegalArguments   // bcrypt given a password that is not a string

  type Table = map<int, Aluno>
  type Users = map<int, Usuario>

  /** The new value of a column after a body key is applied: a left-out key keeps the old value. */
  function Put<T>(current: T, f: Field<T>): (r: T)
    ensures f.Absent? ==> r == current
    ensures f.Given? ==> r == f.value
  {
    match f
    case Absent => current
    case Given(v) => v
  }

  const Blank := Draft(None, None, None, None, None)

  function DraftOf(a: Aluno): Draft {
    Draft(Some(a.nome), Some(a.email), a.telefone, a.curso, a.matricula)
  }

  /** The row a model instance holds once a draft is set on it, as the application sees it: the
      values as given, not as a column stores them. */
  function AsSet(d: Draft): (a: Aluno)
    requires d.nome.Some? && d.email.Some?
    ensures DraftOf(a) == d
  {
    Aluno(d.nome.value, d.email.value, d.telefone, d.curso, d.matricula)
  }

  /** The student row a registration asks for (`Aluno.create({ nome, email, telefone, curso, matricula })`). */
  function RegistrationDraft(body: Registration): Draft {
    Draft(body.nome, body.email, body.telefone, body.curso, body.matricula)
  }

  /** `instance.update(body)` / `Model.create(body)`: each given key overwrites its column. */
  function Apply(d: Draft, body: AlunoFields): Draft {
    Draft(Put(d.nome, body.nome), Put(d.email, body.email), Put(d.telefone, body.telefone),
          Put(d.curso, body.curso), Put(d.matricula, body.matricula))
  }

  /** The body a non-admin's PUT is reduced to: only `telefone` and `curso` are passed on. */
  function SelfService(body: AlunoFields): (r: AlunoFields)
    ensures r.nome.Absent? && r.email.Absent? && r.matricula.Absent?
    ensures r.telefone == body.telefone && r.curso == body.curso
  {
    AlunoFields(Absent, Absent, body.telefone, body.curso, Absent)
  }

  /** The length of a `DataTypes.STRING` column, which Postgres creates as VARCHAR(255). */
  const MaxLength := 255

  /** A value a column can hold: null, or a string of at most `MaxLength` characters. */
  predicate Short(s: Option<string>) {
    s.None? || |s.value| <= MaxLength
  }

  /** A value the database accepts for the column: a short one, or a longer string whose excess
      characters are all spaces (Postgres cuts those off instead of refusing the value). */
  predicate Fits(s: Option<string>) {
    || s.None?
    || |s.value| <= MaxLength
    || forall i :: MaxLength <= i < |s.value| ==> s.value[i] == ' '
  }

  /** What the column keeps of a value it accepts: the value cut to `MaxLength` characters. */
  function Stored(s: Option<string>): (r: Option<string>)
    ensures Short(r) && (r.None? <==> s.None?)
    ensures Short(s) ==> r == s
    ensures s.Some? ==> r.value <= s.value
    ensures Fits(s) && s.Some? ==> forall i :: |r.value| <= i < |s.value| ==> s.value[i] == ' '
  {
    if s.Some? && |s.value| > MaxLength then Some(s.value[..MaxLength]) else s
  }

  /** Every string of the draft fits its column. */
  predicate DraftFits(d: Draft) {
    Fits(d.nome) && Fits(d.email) && Fits(d.telefone) && Fits(d.curso) && Fits(d.matricula)
  }

  /** Every string of the draft is short enough to be held as it is. */
  predicate DraftShort(d: Draft) {
    Short(d.nome) && Short(d.email) && Short(d.telefone) && Short(d.curso) && Short(d.matricula)
  }

  /** The draft as the columns keep it. */
  function StoredDraft(d: Draft): Draft {
    Draft(Stored(d.nome), Stored(d.email), Stored(d.telefone), Stored(d.curso), Stored(d.matricula))
  }

  /** Some row other than `self` already uses e-mail `e`. */
  predicate EmailTaken(t: Table, self: Option<int>, e: string) {
    exists k :: k in t && Some(k) != self && t[k].email == e
  }

  /** Some row other than `self` already uses enrolment code `m`. */
  predicate MatriculaTaken(t: Table, self: Option<int>, m: string) {
    exists k :: k in t && Some(k) != self && t[k].matricula == Some(m)
  }

  /** What writing draft `d` into the row `self` of `t` (a new row when `self` is None) comes to.
      Sequelize first refuses a null `nome` or `email` (NOT NULL) without sending anything. The
      database then refuses a string too long for its VARCHAR(255) column (trailing spaces
      beyond the limit are cut off instead), and last a stored value that clashes with another
      row on `email` or `matricula` (UNIQUE; several rows may hold a null `matricula`). */
  function Validate(t: Table, self: Option<int>, d: Draft): (r: Result<Aluno, Failure>)
    ensures r.Ok? <==> && d.nome.Some? && d.email.Some? && DraftFits(d)
                       && !EmailTaken(t, self, Stored(d.email).value)
                       && (d.matricula.Some? ==> !MatriculaTaken(t, self, Stored(d.matricula).value))
    ensures r.Ok? ==> DraftOf(r.value) == StoredDraft(d)
    ensures r.Ok? && DraftShort(d) ==> DraftOf(r.value) == d
    ensures r.Err? ==> (r.error == NotNullViolation <==> d.nome.None? || d.email.None?)
    ensures r.Err? ==> (r.error == TooLong <==> d.nome.Some? && d.email.Some? && !DraftFits(d))
    ensures r.Err? ==> r.error != IllegalArguments
  {
    if d.nome.None? || d.email.None? then Err(NotNullViolation)
    else if !DraftFits(d) then Err(TooLong)
    else
      var s := StoredDraft(d);
      if EmailTaken(t, self, s.email.value) then Err(UniqueViolation)
      else if s.matricula.Some? && MatriculaTaken(t, self, s.matricula.value) then Err(UniqueViolation)
      else Ok(Aluno(s.nome.value, s.email.value, s.telefone, s.curso, s.matricula))
  }

  /** The UNIQUE constraints of the students table hold. */
  ghost predicate UniqueAlunos(t: Table) {
    forall i, j :: i in t && j in t && i != j ==>
      t[i].email != t[j].email && (t[i].matricula.Some? ==> t[i].matricula != t[j].matricula)
  }

  /** Every stored row is within its columns (the database never holds a longer string). */
  ghost predicate AlunosFit(t: Table) {
    forall k :: k in t ==> DraftShort(DraftOf(t[k]))
  }

  /** Writing a row that passed validation, as a new row or over row `self`, keeps the table's
      UNIQUE constraints. */
  lemma WriteKeepsUnique(t: Table, self: Option<int>, k: int, d: Draft)
    requires UniqueAlunos(t)
    requires Validate(t, self, d).Ok?
    requires if self.Some? then self.value == k && k in t else k !in t
    ensures UniqueAlunos(t[k := Validate(t, self, d).value])
  {
  }

  /** A non-admin's update of its own row writes neither a NOT NULL column nor a UNIQUE one, and
      the row it starts from already satisfied both: it is refused only when the new `telefone`
      or `curso` is too long for its column, and otherwise changes exactly those two columns, to
      what the columns keep of the new values. */
  lemma SelfServiceOutcome(t: Table, id: int, body: AlunoFields)
    requires UniqueAlunos(t) && AlunosFit(t)
    requires id in t
    ensures var telefone, curso := Put(t[id].telefone, body.telefone), Put(t[id].curso, body.curso);
            var r := Validate(t, Some(id), Apply(DraftOf(t[id]), SelfService(body)));
      && (Fits(telefone) && Fits(curso) ==> r == Ok(t[id].(telefone := Stored(telefone), curso := Stored(curso))))
      && (!Fits(telefone) || !Fits(curso) ==> r == Err(TooLong))
  {
  }

  /** The row a primary-key lookup finds (`findByPk`), null when the key is null or unknown. */
  function Lookup(t: Table, id: Option<int>): (r: Option<Aluno>)
    ensures r.Some? <==> id.Some? && id.value in t
    ensures r.Some? ==> r.value == t[id.value]
  {
    if id.Some? && id.value in t then Some(t[id.value]) else None
  }

  /** A user row matches the login identifier when its e-mail or its username equals it
      (`WHERE email = x OR username = x`). A null identifier becomes `IS NULL`, which never
      holds of the NOT NULL e-mail but holds of every user registered without a username. */
  function Matches(u: Usuario, ident: Option<string>): (r: bool)
    ensures ident.None? ==> (r <==> u.username.None?)
    ensures ident.Some? ==> (r <==> u.email == ident.value || u.username == ident)
  {
    Some(u.email) == ident || u.username == ident
  }

  /** `Usuario.create` would clash with a UNIQUE column (`email`, or a non-null `username`). */
  predicate UsuarioConflict(users: Users, email: string, username: Option<string>) {
    exists k :: k in users && (users[k].email == email || (username.Some? && users[k].username == username))
  }

  /** The UNIQUE constraints of the users table hold. */
  ghost predicate UniqueUsuarios(users: Users) {
    forall i, j :: i in users && j in users && i != j ==>
      users[i].email != users[j].email && (users[i].username.Some? ==> users[i].username != users[j].username)
  }

  /** The foreign key `Usuario.alunoId` refers to an existing student, and no student is linked
      to two users. Only the first half is a database constraint: `hasOne` puts no UNIQUE on
      `alunoId`, and the second half holds because the only route that links a user links it to
      the student row it has just inserted. */
  ghost predicate Linked(users: Users, t: Table) {
    && (forall k :: k in users && users[k].alunoId.Some? ==> users[k].alunoId.value in t)
    && (forall i, j :: i in users && j in users && i != j && users[i].alunoId.Some? ==>
          users[i].alunoId != users[j].alunoId)
  }

  /** ON DELETE SET NULL: the users linked to student `id` lose their link; no user is removed,
      no other column changes and every other link is kept. */
  function Unlink(users: Users, id: int): (r: Users)
    ensures r.Keys == users.Keys
    ensures forall k :: k in r ==> r[k].alunoId != Some(id)
    ensures forall k :: k in r ==> r[k] == users[k].(alunoId := r[k].alunoId)
    ensures forall k :: k in r && users[k].alunoId != Some(id) ==> r[k] == users[k]
  {
    map k | k in users :: if users[k].alunoId == Some(id) then users[k].(alunoId := None) else users[k]
  }

  /** Deleting student `id` with SET NULL keeps the users' UNIQUE constraints and their links valid. */
  lemma DeleteKeepsLinks(users: Users, t: Table, id: int)
    requires UniqueUsuarios(users) && Linked(users, t)
    ensures UniqueUsuarios(Unlink(users, id))
    ensures Linked(Unlink(users, id), t - {id})
    ensures forall k :: k in users ==> Unlink(users, id)[k].alunoId != Some(id)
  {
  }

  /** Adding a user that passed the UNIQUE check and links to a student nobody else links to
      keeps the users' constraints. */
  lemma AddUserKeepsLinks(users: Users, t: Table, k: int, u: Usuario)
    requires UniqueUsuarios(users) && Linked(users, t)
    requires k !in users
    requires !UsuarioConflict(users, u.email, u.username)
    requires u.alunoId.Some? ==> u.alunoId.value in t
    requires forall j :: j in users ==> users[j].alunoId != u.alunoId || u.alunoId.None?
    ensures UniqueUsuarios(users[k := u]) && Linked(users[k := u], t)
  {
  }
}

=== FILE: scenarios.dfy ===
/** Whole request sequences against a freshly started server, checked from the routes' contracts
    alone (as a client of `App.Server` would see them). */
module Scenarios {
  import opened Records
  import opened Gate
  import opened App

  /** The default administrator can log in by e-mail right after start-up, and the token it gets
      back passes the gate as an administrator. */
  method AdminLogsIn(crypto: Crypto) returns (res: Response)
    requires CodecSound(crypto) && HashSound(crypto)
    ensures res.status == 200 && res.body.Session?
    ensures res.body.usuario == Claims(1, "admin@admin.com", TipoAdmin, None)
    ensures Authenticate(Some("Bearer " + res.body.token), crypto.verify) == Attached(res.body.usuario)
  {
    var server := new Server(crypto);
    assert crypto.compare("admin", server.usuarios[1].senha);
    assert Matches(server.usuarios[1], Some("admin@admin.com"));
    res := server.Login(Some("admin@admin.com"), Some("admin"));
    SignedTokenAdmitted(crypto, res.body.usuario, "Bearer");
    assert "Bearer " + res.body.token == "Bearer" + " " + res.body.token;
  }

  /** A student registers with a free e-mail and username: the record is stored as sent, and a
      user of `tipo` aluno, holding the hash of the password, is linked to it. */
  method StudentRegisters(crypto: Crypto) returns (server: Server, id: int, u: int)
    ensures u != 1
    ensures fresh(server) && server.Valid() && server.crypto == crypto
    ensures server.alunos == map[id := Aluno("Maria", "maria@example.com", None, Some("Direito"), Some("2024001"))]
    ensures server.usuarios == map[1 := AdminSeed(crypto),
                                   u := Usuario("maria@example.com", Some("maria"), crypto.hash("segredo"), TipoAluno, Some(id))]
  {
    server := new Server(crypto);
    id := server.nextAlunoId;
    u := server.nextUsuarioId;
    assert 1 in server.usuarios;
    var seeded := server.usuarios;
    var body := Registration(Some("Maria"), Some("maria@example.com"), Some("maria"),
                             Some("segredo"), None, Some("Direito"), Some("2024001"));
    var maria := Aluno("Maria", "maria@example.com", None, Some("Direito"), Some("2024001"));
    assert DraftFits(RegistrationDraft(body)) && Fits(body.username);
    assert Validate(server.alunos, None, RegistrationDraft(body)) == Ok(maria);
    assert !UsuarioConflict(seeded, "maria@example.com", Some("maria"));
    var registered := server.Register(body);
  }

  /** The registered student logs in with its username: the token it gets back passes the gate
      with claims linked to its new record. */
  method StudentLogsIn(crypto: Crypto) returns (server: Server, id: int, header: Option<string>)
    requires CodecSound(crypto) && HashSound(crypto)
    ensures fresh(server) && server.Valid() && server.crypto == crypto
    ensures server.alunos == map[id := Aluno("Maria", "maria@example.com", None, Some("Direito"), Some("2024001"))]
    ensures Authenticate(header, crypto.verify).Attached?
    ensures Authenticate(header, crypto.verify).usuario.tipo == TipoAluno
    ensures Authenticate(header, crypto.verify).usuario.alunoId == Some(id)
  {
    var u;
    server, id, u := StudentRegisters(crypto);
    assert server.usuarios.Keys == {1, u};
    assert crypto.compare("segredo", server.usuarios[u].senha);
    assert server.usuarios[1] == AdminSeed(crypto);
    assert Matches(server.usuarios[u], Some("maria")) && !Matches(server.usuarios[1], Some("maria"));
    var login := server.Login(Some("maria"), Some("segredo"));
    var claims := login.body.usuario;
    assert claims == ClaimsOf(u, server.usuarios[u]);
    SignedTokenAdmitted(crypto, claims, "Bearer");
    assert "Bearer " + login.body.token == "Bearer" + " " + login.body.token;
    header := Some("Bearer " + login.body.token);
  }

  /** The logged-in student reads its own record with the token, and tries to rename itself: the
      name stays, the phone changes. Another record is refused with 403 even though it does not
      exist. */
  method StudentSession(crypto: Crypto) returns (read: Response, update: Response, other: Response)
    requires CodecSound(crypto) && HashSound(crypto)
    ensures read.status == 200 && read.body.Row? && read.body.aluno.nome == "Maria"
    ensures update.status == 200 && update.body.Row?
    ensures update.body.aluno.nome == "Maria" && update.body.aluno.telefone == Some("5555")
    ensures other == Forbidden
  {
    var server, id, header := StudentLogsIn(crypto);
    assert Fits(Some("5555")) && Fits(server.alunos[id].curso);
    read := server.GetAluno(header, id);
    update := server.UpdateAluno(header, id, AlunoFields(Given(Some("Hacked")), Absent, Given(Some("5555")), Absent, Absent));
    other := server.GetAluno(header, id + 1);
  }

  /** Registration is not atomic: a username already taken (the administrator's) makes the second
      step fail with 400, yet the student row is kept, and the same e-mail cannot register again,
      not even with a free username, until an administrator removes or edits the orphaned row. */
  method OrphanedRegistration(crypto: Crypto) returns (first: Response, retry: Response, server: Server)
    ensures first == Response(400, Failed(UniqueViolation))
    ensures retry == Response(400, Failed(UniqueViolation))
    ensures |server.alunos| == 1 && server.usuarios == map[1 := AdminSeed(crypto)]
  {
    server := new Server(crypto);
    var id := server.nextAlunoId;
    var seeded := server.usuarios;
    var taken := Registration(Some("Ana"), Some("ana@example.com"), Some("admin"), Some("segredo"), None, None, None);
    var free := taken.(username := Some("ana"));
    var draft := Draft(Some("Ana"), Some("ana@example.com"), None, None, None);
    assert RegistrationDraft(taken) == draft && RegistrationDraft(free) == draft;
    assert DraftFits(draft) && Fits(taken.username);
    first := server.Register(taken);
    assert UsuarioConflict(seeded, "ana@example.com", Some("admin")) by {
      assert seeded[1].username == Some("admin");
    }
    assert server.alunos == map[id := Aluno("Ana", "ana@example.com", None, None, None)];
    assert EmailTaken(server.alunos, None, "ana@example.com") by {
      assert server.alunos[id].email == "ana@example.com";
    }
    assert Validate(server.alunos, None, draft) == Err(UniqueViolation);
    retry := server.Register(free);
  }

  /** With the corrected registration the same request is refused and leaves no row behind, so
      the student can register once the username is changed. */
  method AtomicRegistration(crypto: Crypto) returns (first: Response, retry: Response, server: Server)
    ensures first == Response(400, Failed(UniqueViolation))
    ensures retry == Response(201, MessageBody(Registered))
    ensures |server.alunos| == 1 && |server.usuarios| == 2
  {
    server := new Server(crypto);
    var seeded := server.usuarios;
    var taken := Registration(Some("Ana"), Some("ana@example.com"), Some("admin"), Some("segredo"), None, None, None);
    var free := taken.(username := Some("ana"));
    var draft := Draft(Some("Ana"), Some("ana@example.com"), None, None, None);
    assert RegistrationDraft(taken) == draft && RegistrationDraft(free) == draft;
    assert DraftFits(draft) && Fits(taken.username) && Fits(free.username);
    first := server.RegisterAtomic(taken);
    assert UsuarioConflict(seeded, "ana@example.com", Some("admin")) by {
      assert seeded[1].username == Some("admin");
    }
    assert server.alunos == map[];
    retry := server.RegisterAtomic(free);
  }

  /** A student's phone longer than its VARCHAR(255) column is refused with 400, and the record
      keeps its old phone. */
  method LongPhoneRefused(crypto: Crypto) returns (update: Response, server: Server, id: int)
    requires CodecSound(crypto) && HashSound(crypto)
    ensures update == Response(400, Failed(TooLong))
    ensures id in server.alunos && server.alunos[id].telefone == None
  {
    var header;
    server, id, header := StudentLogsIn(crypto);
    var phone := seq(MaxLength + 1, _ => '9');
    assert phone[MaxLength] == '9';
    assert !Fits(Some(phone));
    update := server.UpdateAluno(header, id, AlunoFields(Absent, Absent, Given(Some(phone)), Absent, Absent));
  }

  /** A phone whose characters beyond the column's 255 are all spaces is accepted: the column
      keeps its first 255 characters, while the answer echoes the phone as it was sent. */
  method TrailingSpacesCut(crypto: Crypto) returns (update: Response, server: Server, id: int)
    requires CodecSound(crypto) && HashSound(crypto)
    ensures update.status == 200 && update.body.Row?
    ensures update.body.aluno.telefone == Some(seq(MaxLength, _ => '9') + " ")
    ensures id in server.alunos && server.alunos[id].telefone == Some(seq(MaxLength, _ => '9'))
  {
    var header;
    server, id, header := StudentLogsIn(crypto);
    var nines := seq(MaxLength, _ => '9');
    var phone := nines + " ";
    assert phone[MaxLength] == ' ' && phone[..MaxLength] == nines;
    assert Fits(Some(phone)) && Stored(Some(phone)) == Some(nines);
    assert Fits(server.alunos[id].curso);
    update := server.UpdateAluno(header, id, AlunoFields(Absent, Absent, Given(Some(phone)), Absent, Absent));
  }

  /** The registration page sends a field left blank as "", which the UNIQUE `username` column
      takes as a value: the second student who leaves the username blank gets 400, yet its
      student row is kept. */
  method BlankUsernameOrphan(crypto: Crypto) returns (first: Response, second: Response, server: Server)
    ensures first == Response(201, MessageBody(Registered))
    ensures second == Response(400, Failed(UniqueViolation))
    ensures |server.alunos| == 2 && |server.usuarios| == 2
  {
    server := new Server(crypto);
    var a := server.nextAlunoId;
    var u := server.nextUsuarioId;
    assert 1 in server.usuarios;
    var seeded := server.usuarios;
    var ana := Registration(Some("Ana"), Some("ana@example.com"), Some(""), Some("segredo"), Some(""), Some(""), Some("2024001"));
    var bia := Registration(Some("Bia"), Some("bia@example.com"), Some(""), Some("segredo"), Some(""), Some(""), Some("2024002"));
    assert DraftFits(RegistrationDraft(ana)) && DraftFits(RegistrationDraft(bia)) && Fits(ana.username);
    assert Validate(server.alunos, None, RegistrationDraft(ana)).Ok?;
    assert !UsuarioConflict(seeded, "ana@example.com", Some(""));
    first := server.Register(ana);
    assert server.alunos.Keys == {a} && server.usuarios.Keys == {1, u};
    assert !EmailTaken(server.alunos, None, "bia@example.com");
    assert !MatriculaTaken(server.alunos, None, "2024002");
    assert UsuarioConflict(server.usuarios, "bia@example.com", Some("")) by {
      assert server.usuarios[u].username == Some("");
    }
    second := server.Register(bia);
  }

  /** With blank fields turned into null, and the corrected registration, two students who both
      leave the username and the enrolment code blank are both registered. */
  method BlankFieldsNormalized(crypto: Crypto) returns (first: Response, second: Response, server: Server)
    ensures first == Response(201, MessageBody(Registered))
    ensures second == Response(201, MessageBody(Registered))
    ensures |server.alunos| == 2 && |server.usuarios| == 3
  {
    server := new Server(crypto);
    var a := server.nextAlunoId;
    var u := server.nextUsuarioId;
    assert 1 in server.usuarios;
    var seeded := server.usuarios;
    var ana := NullIfBlank(Registration(Some("Ana"), Some("ana@example.com"), Some(""), Some("segredo"), Some(""), Some(""), Some("")));
    var bia := NullIfBlank(Registration(Some("Bia"), Some("bia@example.com"), Some(""), Some("segredo"), Some(""), Some(""), Some("")));
    assert ana == Registration(Some("Ana"), Some("ana@example.com"), None, Some("segredo"), None, None, None);
    assert bia == Registration(Some("Bia"), Some("bia@example.com"), None, Some("segredo"), None, None, None);
    assert DraftFits(RegistrationDraft(ana)) && DraftFits(RegistrationDraft(bia));
    assert Validate(server.alunos, None, RegistrationDraft(ana)).Ok?;
    assert !UsuarioConflict(seeded, "ana@example.com", None);
    first := server.RegisterAtomic(ana);
    assert server.alunos.Keys == {a} && server.usuarios.Keys == {1, u};
    assert !EmailTaken(server.alunos, None, "bia@example.com");
    assert RegistrationDraft(bia) == Draft(Some("Bia"), Some("bia@example.com"), None, None, None);
    assert Validate(server.alunos, None, RegistrationDraft(bia)).Ok?;
    assert !UsuarioConflict(server.usuarios, "bia@example.com", None);
    second := server.RegisterAtomic(bia);
  }
}
